=== FILE: README.md ===
# Study-sprint functions: a Dafny model

This project models the server side of a small study application. It also models the part of the browser client that talks to it.

Server functions, each modelled as a pure transition from a store and a request to a new store and a response:

- **Authentication:** `auth-register`, `auth-login` and `auth-verify`, together with the shared helpers `hashPassword` and `verifyToken`. These work on the auth store, which holds `user:<name>` records and `session:<token>` login tokens.
- **Study sessions:** `sessions-next`, `sessions-save` and `sessions-list`. These work on the sessions store, which holds the per-user cursor `cursor:<userId>`, session records `session:<userId>:<sessionId>` and per-user lists `list:<userId>`.
  - `sessions-next` is the cursor allocator. It hands out consecutive pool positions and advances the stored cursor.
  - `sessions-save` writes a session record, then appends a summary to the user's list.
  - `sessions-list` returns that list to the holder of a valid login token.

Browser client (`frontend/app.js`):

- the minutes-to-questions table;
- the reduction of returned indices against the local question pool;
- the bodies it posts to the session functions;
- the countdown (`tick`, `pauseResume`, `resetSession` and the timer part of `startSession`) and its `mm:ss` text;
- `escapeHTML`.

Modules:

| module | file | contents |
|---|---|---|
| `Common` | common.dfy | `Option`, JavaScript truthiness, JavaScript's truncating `%` |
| `Stores` | stores.dfy | record types, the two stores, key builders and key-disjointness lemmas |
| `Http` | http.dfy | response bodies, `Authorization` header parsing |
| `AuthUtil` | auth_util.dfy | `hashPassword`, `verifyToken` |
| `AuthHandlers` | auth_handlers.dfy | register, login, verify |
| `SessionsNext` | sessions_next.dfy | the cursor allocator and its round-robin coverage |
| `SessionsHistory` | sessions_history.dfy | save and list |
| `Client` | client.dfy | question count, pool index, request bodies |
| `Timer` | timer.dfy | countdown state, interval bookkeeping, `mm:ss` text |
| `Markup` | markup.dfy | `escapeHTML` and its inverse |
| `Flows` | flows.dfy | properties spanning several calls, store invariants, client/server interplay |

Points where the code behaves differently from what a reader might assume, modelled as the code has them:

- `sessions-next` and `sessions-save` trust the `userId` named in the request body. They check no token. `sessions-list` alone keys on the verified username.
- `sessions-next` returns indices that are already reduced modulo `totalItems`, not the raw cursor positions. These reduced values are what the client saves.
- `sessions-save` accepts `items: []`. Every JavaScript array is truthy, so only a missing `items` is refused.
- A token is still valid at its `expiresAt` instant. Only `now > expiresAt` expires it.
- `replace('Bearer ', '')` removes the first occurrence of `Bearer ` anywhere in the header, not only a leading one (`Http.StripBearerRemovesFirst`).

## Model

| member | source | states |
|---|---|---|
| Common.TruncatedRem | netlify/functions/sessions-next.js:15 | `a % b` as JavaScript computes it: the remainder has the dividend's sign and is smaller than the divisor in magnitude, and a non-negative value below the divisor's magnitude is left unchanged |
| Common.TruncatedDivision | netlify/functions/sessions-next.js:15 | `a` is the divisor times the quotient rounded toward zero plus `a % b`, which with the bounds above fixes the remainder's value |
| Common.NatDivision | netlify/functions/sessions-next.js:15 | a non-negative number is its quotient times the divisor plus its remainder |
| Common.RemainderExamples | frontend/app.js:141 | `7 % 3` is 1 with quotient 2, `-7 % 3` is -1 and `7 % -3` is 1 |
| Stores.AuthKeysDistinct | netlify/functions/_shared/auth-util.js:40 | a user key never equals a token key, so a token can never overwrite a user record |
| Stores.SessionKeysDistinct | netlify/functions/sessions-save.js:11-14 | cursor, record and list keys are pairwise distinct whatever the ids |
| Stores.KeysInjective | netlify/functions/sessions-next.js:11 | the user, token, cursor and list keys each determine their argument |
| Stores.RecordKeyAmbiguous | netlify/functions/sessions-save.js:11 | a user id containing `:` can produce another user's record key |
| Stores.RecordKeyInjective | netlify/functions/sessions-save.js:11 | with colon-free session ids (those `sessions-next` generates), the record key determines both user and session |
| Http.StripBearerRemovesFirst | netlify/functions/auth-verify.js:13 | a header without `Bearer ` is kept whole; otherwise exactly its first occurrence is cut out |
| Http.StripBearer | netlify/functions/auth-verify.js:13 | `replace('Bearer ', '')` removes seven characters or none, and leaves a header shorter than the prefix alone |
| Http.HeaderToken | netlify/functions/sessions-list.js:10-11 | no header or an empty one gives no token; a header without `Bearer ` is the token itself; otherwise the token is the header with its first `Bearer ` cut out |
| Http.BearerHeaderToken | netlify/functions/sessions-list.js:11 | the header `Bearer <t>` yields the token `t` |
| AuthUtil.HashPassword | netlify/functions/_shared/auth-util.js:24-28 | a given salt is reused, a falsy one is replaced by the fresh salt; the returned salt is never empty and the hash is PBKDF2 of password and that salt |
| AuthUtil.HashDeterministic | netlify/functions/_shared/auth-util.js:24-28 | with a salt supplied, the result does not depend on the random bytes |
| AuthUtil.VerifyToken | netlify/functions/_shared/auth-util.js:36-53 | a name is returned iff a token record exists and has not expired, and it is that record's name; an expired record is deleted and nothing else changes |
| AuthUtil.ExpiredStaysInvalid | netlify/functions/_shared/auth-util.js:45-50 | after an expired token is deleted, every later check of it fails without further change |
| AuthUtil.VerifyTokenFrame | netlify/functions/_shared/auth-util.js:36-53 | checking a token never touches any other key |
| AuthHandlers.RegistrationError | netlify/functions/auth-register.js:16-26 | the input checks run in order: both fields present, name of at least 3 characters, password of at least 6, each failure named exactly |
| AuthHandlers.Register | netlify/functions/auth-register.js:4-50 | 405 for other methods, 400 for bad input, 409 exactly when the name is taken, 200 exactly for a POST with valid input and a free name; on success only the new user key is added, holding the salted hash under the fresh salt |
| AuthHandlers.Login | netlify/functions/auth-login.js:4-48 | 405 and 400 as for register; 401 exactly when the user is missing or the re-hashed password differs, 200 exactly when both fields are given and the re-hash matches; on success only the new token key is added, holding a record that expires 24 hours on |
| AuthHandlers.Verify | netlify/functions/auth-verify.js:4-26 | 405 for other methods, 401 without a token, then 200 with the bound name or 401 per `verifyToken`; a success changes no store |
| AuthHandlers.LoginFailuresIndistinguishable | netlify/functions/auth-login.js:25-34 | an unknown user and a wrong password get the identical response |
| SessionsNext.Indices | netlify/functions/sessions-next.js:14-15 | the allocation loop yields `numQ` indices, the `i`-th the cursor plus `i` modulo the pool size |
| SessionsNext.Next | netlify/functions/sessions-next.js:4-21 | 405/400 refusals; 200 iff POST with all fields truthy; the indices follow the cursor and lie in the pool; only the cursor key changes, advanced by the count |
| SessionsNext.IndicesCompose | netlify/functions/sessions-next.js:15-16 | allocating `n` then `m` gives the same indices as allocating `n + m` at once |
| SessionsNext.Repeated | netlify/functions/sessions-next.js:11-16 | `k` sequential single requests hand out exactly what one allocation of `k` from the stored cursor would, and advance it by `k` |
| Common.NatRemDistinct | netlify/functions/sessions-next.js:15 | `m` consecutive non-negative numbers leave pairwise different remainders by `m` |
| Common.NatRemAdd | netlify/functions/sessions-next.js:15 | the remainder of a sum only depends on the remainder of the first summand |
| SessionsNext.FirstCycleVisitsEachItemOnce | netlify/functions/sessions-next.js:13-15 | a new user's first `P` single requests against a pool of `P` return `0, 1, ..., P-1` |
| SessionsNext.CycleIsPermutation | netlify/functions/sessions-next.js:15 | from any non-negative cursor, `P` consecutive indices are pairwise distinct and cover the whole pool |
| SessionsHistory.Save | netlify/functions/sessions-save.js:4-18 | 405/400 refusals; 200 iff POST with all fields truthy; writes the full record and appends its summary to the user's list, and nothing else |
| SessionsHistory.List | netlify/functions/sessions-list.js:5-26 | 405, 401 without a token, 401 for an invalid token; otherwise the verified user's list, empty when absent |
| SessionsHistory.ListRefusalIgnoresSessions | netlify/functions/sessions-list.js:13-21 | every refusal is decided before the sessions store is read |
| Client.QuestionCount | frontend/app.js:113-114 | 10, 20 and 30 minutes ask for 1, 2 and 3 questions; any other value for 1 |
| Client.PoolIndex | frontend/app.js:141 | `idx % allQA.length`: no item for an empty pool; otherwise the truncated-division remainder, a valid position for a non-negative index (a negative index gives a remainder in (-len, 0], which names an item only when it is 0), and an index already in range is kept |
| Client.StartRequest | frontend/app.js:127 | the start body the client posts carries the question count and pool size but never passes the server's field check |
| Client.SaveRequest | frontend/app.js:150 | the save body the client posts never passes the server's field check |
| Client.StartRequestFor | frontend/app.js:121-128 | a start body that names the user is accepted iff the user and pool are non-empty |
| Client.SaveRequestFor | frontend/app.js:144-151 | a save body that names the user is accepted iff user, session id and minutes are truthy |
| Timer.Tick | frontend/app.js:190-199 | a paused tick does nothing; otherwise one second goes, never below zero, and reaching zero clears the interval |
| Timer.TicksRunDown | frontend/app.js:190-199 | `k` ticks take `k` seconds off a running countdown, and once at zero the timer is cleared |
| Timer.PauseResume | frontend/app.js:201-212 | a stopped countdown with time left restarts with a new interval, otherwise the pause flag flips |
| Timer.PauseResumeTwice | frontend/app.js:201-212 | on a running countdown, pause then resume restores the state |
| Timer.Reset | frontend/app.js:214-221 | remaining and total go to zero and the remembered interval is cleared |
| Timer.Start | frontend/app.js:153-159 | the countdown is set, ticked once and given a new interval; every interval live before stays live (the remembered one is stopped only when the single tick already reaches zero), and the handle counter moves on by one |
| Timer.StartClean | frontend/app.js:153-159 | the start with the old interval cleared first: only the remembered interval is stopped and the new one added, so from a tidy state exactly the new interval is live |
| Timer.ConsistentPreserved | frontend/app.js:190-221 | every countdown operation keeps the remembered handle live and all handles issued |
| Timer.StartLeaksInterval | frontend/app.js:153-159 | two starts leave two intervals running, and a reset still leaves one |
| Timer.CleanStartStaysTidy | frontend/app.js:214-221 | with the clean start the only live interval is the remembered one, so a reset stops all |
| Timer.DecimalText | frontend/app.js:224-225 | `String(n)` is a non-empty run of digits with no leading zero from 10 on, one digit below 10 and two below 100 |
| Timer.DecimalRoundTrip | frontend/app.js:224-225 | the digits of `String(n)` read back as `n` |
| Timer.PadTwo | frontend/app.js:224-225 | `padStart(2, "0")` keeps a text of two or more characters and left-fills a shorter one with zeros to two |
| Timer.PaddedValue | frontend/app.js:224-225 | a two-digit padded number reads back as itself |
| Timer.CountdownText | frontend/app.js:223-226 | the `mm:ss` text reads back as the seconds shown, with a seconds field below 60, and is five characters under 100 minutes; `CountdownTextUnique` shows no other five-character text does |
| Timer.CountdownTextUnique | frontend/app.js:224-226 | under 100 minutes, a five-character text that reads back as `rem` seconds is exactly `pad2(floor(rem / 60)):pad2(rem % 60)` |
| Markup.Escape | frontend/app.js:287 | the escaped text holds no `<`, `>`, `"` or `'` and is never shorter |
| Markup.EscapeHtml | frontend/app.js:287 | a falsy argument gives ""; any other gives its escaped text, which decodes back to it |
| Markup.UnescapeEscape | frontend/app.js:287 | decoding the five references recovers the original text exactly |
| Markup.EscapedAmpersands | frontend/app.js:287 | every `&` in the escaped text begins one of the five references, so no `&` of the input is left raw |
| Markup.EscapeKeepsPlainText | frontend/app.js:287 | text without special characters passes through unchanged |
| Flows.RegisterThenLogin | netlify/functions/auth-login.js:29-34 | a name and password that pass registration's checks, with the name free, register with 200, and that password then logs in |
| Flows.RegisterThenWrongPassword | netlify/functions/auth-login.js:29-34 | a password with a different hash under the stored salt is refused with the generic 401 |
| Flows.RegisterTwice | netlify/functions/auth-register.js:28-35 | a registered name can never be registered again, and valid input gets 409 |
| Flows.IssuedTokenVerifies | netlify/functions/auth-login.js:36-48 | after a login with a matching password, the fresh token verifies to the login name up to its expiry instant inclusive |
| Flows.IssuedTokenExpires | netlify/functions/_shared/auth-util.js:45-50 | after expiry the token is refused and deleted, and stays refused |
| Flows.SaveThenList | netlify/functions/sessions-list.js:23-26 | a saved session is the last entry the same user then lists, after the earlier ones |
| Flows.NextKeepsStoreOk | netlify/functions/sessions-next.js:11-16 | allocation keeps every cursor non-negative and every listed session recorded |
| Flows.SaveKeepsStoreOk | netlify/functions/sessions-save.js:10-17 | saving keeps every cursor non-negative and every listed session recorded |
| Flows.ClientStartIsRejected | frontend/app.js:121-128 | the client's start request always gets 400 "Missing fields" and leaves the store as it was |
| Flows.ClientSaveIsRejected | frontend/app.js:144-151 | the client's save request always gets 400 "Missing fields" and leaves the store as it was |
| Flows.ServedStartThenSaveIsRejected | frontend/app.js:144-151 | even once the start request names the user and is served, the save body the client posts is refused with 400 |
| Flows.ClientStartWithUserIsServed | frontend/app.js:113-142 | naming the user, a start from a non-empty pool is served with the right number of in-range indices, which the client's reduction keeps |
| Flows.ClientSaveWithUserIsStored | frontend/app.js:144-151 | naming the user, the save is stored and appended to that user's list |

## Left out

- `_shared/sessions-util.js` (the sessions store handle and JSON response helper), `test.js` and `frontend/login.js` are not part of this model.
- Storage is an immutable map. The blob store's network I/O, concurrency and the lack of a transaction between read and write are not modelled, so lost updates between concurrent allocations are out of scope.
- PBKDF2 is a function parameter, and `crypto.randomBytes` results arrive as arguments (`Salt`, `Token`). So do `Math.random`-based session ids, `Date.now()` and `new Date().toISOString()`.
- Login reads `Date.now()` twice, for `expiresAt` and `createdAt`. The model uses one instant for both.
- JSON parsing is not modelled. A body is a record of optional, already-typed fields. Fields of another JSON type (a numeric `username`, a string `numQ`), non-integer numbers and the catch-all 500 responses are left out.
- The readers `ReadUser`, `ReadToken`, `ReadCursor` and `ReadList` treat a stored value of the wrong shape under a key as absent; `Register`'s existence test looks only at the key, as the source's `if (existingUser)` does. No function writes such a value.
- Cursors are stored as decimal text. The model keeps the parsed integer and does not model `parseInt` on corrupted text.
- String lengths count characters, not UTF-16 code units.
- Client: the DOM, `fetch`, `localStorage`, the question loader, card rendering, the progress percentage and the review list's sorting are not modelled.
- Timer: browser scheduling is abstracted to handle bookkeeping. A live interval is one the browser would keep firing.
- Timer.PauseResumeTwice: stated only for a countdown whose interval is running or that has no time left. A stopped countdown with time left restarts instead of toggling.

## Findings

| source | as written | input that shows it | evidently intended | confidence | as-written member | corrected member |
|---|---|---|---|---|---|---|
| frontend/app.js:121-128 | `startSession` posts `{ numQ, totalItems }` to sessions-next, with no `userId`, so every start gets 400 and `startSession` throws before rendering | any session start, e.g. 10 minutes with a pool of 5 items | the body names the signed-in user, so the allocation is served | not executed | Flows.ClientStartIsRejected | Flows.ClientStartWithUserIsServed |
| frontend/app.js:144-151 | `startSession` posts `{ sessionId, minutes, items }` to sessions-save, with no `userId`; latent as written, since the start already fails before this post | once the start request names the user (user "alice", 10 minutes, pool of 5): sessions-next answers 200 and the save that follows gets 400, with the failure ignored | the body names the signed-in user, so the session is recorded | not executed | Flows.ServedStartThenSaveIsRejected | Flows.ClientSaveWithUserIsStored |
| frontend/app.js:153-159 | `startSession` overwrites `timer` with a new interval without clearing the running one; latent as written, since the start fails before these lines | once the start request names the user: start a 10-minute session, start another before it ends, then reset | the old interval is cleared first, so a reset stops every interval | not executed | Timer.StartLeaksInterval | Timer.CleanStartStaysTidy |

=== FILE: auth_handlers.dfy ===
/** The three authentication functions: register, login and verify. Each is
    a transition from the auth store, the request and the clock to the
    next auth store and a response. */
module AuthHandlers {
  import opened Common
  import opened Stores
  import opened Http
  import opened AuthUtil

  /** The parsed JSON body `{ username, password }`. */
  datatype Credentials = Credentials(username: Option<string>, password: Option<string>)

  const Required := "Username and password are required"
  const UsernameTooShort := "Username must be at least 3 characters long"
  const PasswordTooShort := "Password must be at least 6 characters long"
  const UsernameTaken := "Username already exists"
  const BadCredentials := "Invalid username or password"
  const NoToken := "No token provided"

  /** Token lifetime: 24 hours in milliseconds. */
  const DayMs := 24 * 60 * 60 * 1000

  predicate BothGiven(c: Credentials)
  {
    Truthy(c.username) && Truthy(c.password)
  }

  /** The first registration input check that fails, if any. The checks run
      in a fixed order, all before the store is consulted. */
  function RegistrationError(c: Credentials): (e: Option<string>)
    ensures e == Some(Required) <==> !BothGiven(c)
    ensures e == Some(UsernameTooShort) <==> BothGiven(c) && |c.username.value| < 3
    ensures e == Some(PasswordTooShort) <==> BothGiven(c) && |c.username.value| >= 3 && |c.password.value| < 6
    ensures e.None? <==> BothGiven(c) && |c.username.value| >= 3 && |c.password.value| >= 6
  {
    if !BothGiven(c) then Some(Required)
    else if |c.username.value| < 3 then Some(UsernameTooShort)
    else if |c.password.value| < 6 then Some(PasswordTooShort)
    else None
  }

  /** POST /auth-register. */
  function Register(auth: AuthStore, httpMethod: string, body: Credentials,
                    pbkdf2: (string, string) -> string, newSalt: Salt, now: int): (r: Reply<AuthStore>)
    ensures httpMethod != "POST" ==> r == Reply(auth, 405, Error(MethodNotAllowed))
    ensures httpMethod == "POST" && RegistrationError(body).Some? ==>
              r == Reply(auth, 400, Error(RegistrationError(body).value))
    ensures r.status == 409 <==>
              httpMethod == "POST" && RegistrationError(body).None? && UserKey(body.username.value) in auth
    ensures r.status == 409 ==> r == Reply(auth, 409, Error(UsernameTaken))
    ensures r.status == 200 <==>
              httpMethod == "POST" && RegistrationError(body).None? && UserKey(body.username.value) !in auth
    ensures r.status == 200 ==>
              var key := UserKey(body.username.value);
              && key !in auth
              && r.store.Keys == auth.Keys + {key}
              && (forall k :: k in auth ==> r.store[k] == auth[k])
              && ReadUser(r.store, key).Some?
              && var user := ReadUser(r.store, key).value;
              && user.username == body.username.value
              && user.passwordSalt == newSalt
              && user.passwordHash == pbkdf2(body.password.value, user.passwordSalt)
              && user.createdAt == now
              && r.body == Registered
    ensures r.status in {200, 400, 405, 409}
  {
    if httpMethod != "POST" then Reply(auth, 405, Error(MethodNotAllowed))
    else match RegistrationError(body)
      case Some(message) => Reply(auth, 400, Error(message))
      case None =>
        var username := body.username.value;
        var key := UserKey(username);
        if key in auth then Reply(auth, 409, Error(UsernameTaken))
        else
          var hashed := HashPassword(pbkdf2, body.password.value, "", newSalt);
          var user := UserRecord(username, hashed.hash, hashed.salt, now);
          Reply(auth[key := UserEntry(user)], 200, Registered)
  }

  /** The stored user `username` exists and `password` hashes, under that
      user's stored salt, to the stored hash. */
  predicate PasswordMatches(auth: AuthStore, username: string, password: string,
                            pbkdf2: (string, string) -> string, newSalt: Salt)
  {
    var user := ReadUser(auth, UserKey(username));
    user.Some? && HashPassword(pbkdf2, password, user.value.passwordSalt, newSalt).hash == user.value.passwordHash
  }

  /** POST /auth-login. `newSalt` is only used when the stored salt is
      empty, which registration never writes. */
  function Login(auth: AuthStore, httpMethod: string, body: Credentials,
                 pbkdf2: (string, string) -> string, newSalt: Salt, token: Token, now: int): (r: Reply<AuthStore>)
    ensures httpMethod != "POST" ==> r == Reply(auth, 405, Error(MethodNotAllowed))
    ensures httpMethod == "POST" && !BothGiven(body) ==> r == Reply(auth, 400, Error(Required))
    ensures r.status == 401 <==>
              httpMethod == "POST" && BothGiven(body) &&
              !PasswordMatches(auth, body.username.value, body.password.value, pbkdf2, newSalt)
    ensures r.status == 401 ==> r == Reply(auth, 401, Error(BadCredentials))
    ensures r.status == 200 <==>
              httpMethod == "POST" && BothGiven(body) &&
              PasswordMatches(auth, body.username.value, body.password.value, pbkdf2, newSalt)
    ensures r.status == 200 ==>
              var key := TokenKey(token);
              && r.body == LoggedIn(token)
              && r.store.Keys == auth.Keys + {key}
              && (forall k :: k in auth && k != key ==> r.store[k] == auth[k])
              && ReadToken(r.store, key) == Some(TokenRecord(body.username.value, now + DayMs, now))
    ensures r.status in {200, 400, 401, 405}
  {
    if httpMethod != "POST" then Reply(auth, 405, Error(MethodNotAllowed))
    else if !BothGiven(body) then Reply(auth, 400, Error(Required))
    else
      var username := body.username.value;
      match ReadUser(auth, UserKey(username))
      case None => Reply(auth, 401, Error(BadCredentials))
      case Some(user) =>
        var hashed := HashPassword(pbkdf2, body.password.value, user.passwordSalt, newSalt);
        if hashed.hash != user.passwordHash then Reply(auth, 401, Error(BadCredentials))
        else
          var session := TokenRecord(username, now + DayMs, now);
          Reply(auth[TokenKey(token) := TokenEntry(session)], 200, LoggedIn(token))
  }

  /** GET /auth-verify. */
  function Verify(auth: AuthStore, httpMethod: string, authorization: Option<string>, now: int): (r: Reply<AuthStore>)
    ensures httpMethod != "GET" ==> r == Reply(auth, 405, Error(MethodNotAllowed))
    ensures httpMethod == "GET" && HeaderToken(authorization) == "" ==> r == Reply(auth, 401, Error(NoToken))
    ensures httpMethod == "GET" && HeaderToken(authorization) != "" ==>
              var v := VerifyToken(auth, HeaderToken(authorization), now);
              && r.store == v.store
              && (Truthy(v.username) ==> r.status == 200 && r.body == Authenticated(v.username.value))
              && (!Truthy(v.username) ==> r.status == 401 && r.body == Error(InvalidToken))
    ensures r.status == 200 ==> r.store == auth
  {
    if httpMethod != "GET" then Reply(auth, 405, Error(MethodNotAllowed))
    else
      var token := HeaderToken(authorization);
      if token == "" then Reply(auth, 401, Error(NoToken))
      else
        var v := VerifyToken(auth, token, now);
        if !Truthy(v.username) then Reply(v.store, 401, Error(InvalidToken))
        else Reply(v.store, 200, Authenticated(v.username.value))
  }

  /** An unknown user and a wrong password are answered identically. */
  lemma LoginFailuresIndistinguishable(auth: AuthStore, body: Credentials,
                                       pbkdf2: (string, string) -> string, newSalt: Salt, token: Token, now: int)
    requires BothGiven(body)
    requires UserKey(body.username.value) !in auth ||
             (ReadUser(auth, UserKey(body.username.value)).Some? &&
              pbkdf2(body.password.value, ReadUser(auth, UserKey(body.username.value)).value.passwordSalt)
                != ReadUser(auth, UserKey(body.username.value)).value.passwordHash &&
              ReadUser(auth, UserKey(body.username.value)).value.passwordSalt != "")
    ensures Login(auth, "POST", body, pbkdf2, newSalt, token, now) == Reply(auth, 401, Error(BadCredentials))
  {
  }
}

=== FILE: auth_util.dfy ===
/** The shared authentication helpers: salted password hashing and the
    token check every protected function runs.

    PBKDF2 (1000 iterations, 64 bytes, SHA-512, hex-encoded) is a parameter
    `pbkdf2` of the model, and random bytes arrive as arguments of the
    subset types below, so every operation here is a pure function. */
module AuthUtil {
  import opened Common
  import opened Stores

  /** Lower-case hexadecimal text, as `Buffer.toString('hex')` produces. */
  predicate IsLowerHex(s: string)
  {
    forall i :: 0 <= i < |s| ==> s[i] in "0123456789abcdef"
  }

  function Zeros(n: nat): (s: string)
    ensures |s| == n && IsLowerHex(s)
  {
    seq(n, _ => '0')
  }

  /** 16 random bytes as hex: a fresh salt. */
  type Salt = s: string | |s| == 32 && IsLowerHex(s)
    witness Zeros(32)

  /** 32 random bytes as hex: a fresh login token. */
  type Token = s: string | |s| == 64 && IsLowerHex(s)
    witness Zeros(64)

  datatype Hashed = Hashed(hash: string, salt: string)

  /** `hashPassword(password, salt)`. A falsy salt (null or "", both written
      "" here) is replaced by the fresh one; any other salt is reused. */
  function HashPassword(pbkdf2: (string, string) -> string, password: string, salt: string, newSalt: Salt): (r: Hashed)
    ensures salt != "" ==> r.salt == salt
    ensures salt == "" ==> r.salt == newSalt
    ensures r.salt != ""
    ensures r.hash == pbkdf2(password, r.salt)
  {
    var useSalt := if salt != "" then salt else newSalt;
    Hashed(pbkdf2(password, useSalt), useSalt)
  }

  /** With a salt supplied, the result does not depend on the fresh salt:
      the hash is a function of password and salt alone. */
  lemma HashDeterministic(pbkdf2: (string, string) -> string, password: string, salt: string, f1: Salt, f2: Salt)
    requires salt != ""
    ensures HashPassword(pbkdf2, password, salt, f1) == HashPassword(pbkdf2, password, salt, f2)
  {
  }

  /** The result of `verifyToken`: the store afterwards (an expired token
      is deleted) and the bound username, or None for `null`. */
  datatype Verification = Verification(store: AuthStore, username: Option<string>)

  /** The token record `token` names, if any (an empty token names none). */
  function TokenRecordOf(auth: AuthStore, token: string): Option<TokenRecord>
  {
    if token == "" then None else ReadToken(auth, TokenKey(token))
  }

  /** `verifyToken(token)` at time `now`. Expiry is strict: a token is
      still valid at the instant `expiresAt`. */
  function VerifyToken(auth: AuthStore, token: string, now: int): (r: Verification)
    ensures r.username.Some? <==>
              TokenRecordOf(auth, token).Some? && now <= TokenRecordOf(auth, token).value.expiresAt
    ensures r.username.Some? ==> r.username.value == TokenRecordOf(auth, token).value.username
    ensures r.store == auth || (TokenRecordOf(auth, token).Some? && now > TokenRecordOf(auth, token).value.expiresAt)
    ensures r.store != auth ==> r.store == auth - {TokenKey(token)}
    ensures TokenRecordOf(auth, token).Some? && now > TokenRecordOf(auth, token).value.expiresAt ==>
              TokenKey(token) !in r.store
  {
    if token == "" then Verification(auth, None)
    else
      var key := TokenKey(token);
      match ReadToken(auth, key)
      case None => Verification(auth, None)
      case Some(session) =>
        if now > session.expiresAt then Verification(auth - {key}, None)
        else Verification(auth, Some(session.username))
  }

  /** Once a token has been found expired, every later check of it fails and
      changes nothing, whatever the clock says. */
  lemma ExpiredStaysInvalid(auth: AuthStore, token: string, now: int, later: int)
    requires TokenRecordOf(auth, token).Some? && now > TokenRecordOf(auth, token).value.expiresAt
    ensures var after := VerifyToken(auth, token, now).store;
            VerifyToken(after, token, later) == Verification(after, None)
  {
  }

  /** Checking a token never touches user records or other tokens. */
  lemma VerifyTokenFrame(auth: AuthStore, token: string, now: int, key: string)
    requires key != TokenKey(token)
    ensures var after := VerifyToken(auth, token, now).store;
            (key in after <==> key in auth) && (key in auth ==> after[key] == auth[key])
  {
  }
}

=== FILE: client.dfy ===
/** What the browser client computes around the session functions: how
    many questions a session length asks for, how a returned index is
    reduced against the local question pool, and the request bodies it
    posts. */
module Client {
  import opened Common
  import opened SessionsNext
  import opened SessionsHistory

  /** `QUESTION_MAP[minutes] ?? 1` with `QUESTION_MAP = {10: 1, 20: 2, 30: 3}`. */
  function QuestionCount(minutes: int): (n: int)
    ensures 1 <= n <= 3
    ensures minutes == 10 || minutes == 20 || minutes == 30 ==> n * 10 == minutes
    ensures minutes != 10 && minutes != 20 && minutes != 30 ==> n == 1
  {
    if minutes == 10 then 1 else if minutes == 20 then 2 else if minutes == 30 then 3 else 1
  }

  /** `idx % allQA.length`, used both when rendering a new session and when
      re-opening a past one. An empty pool gives NaN, None here. A negative
      index gives a remainder in (-len, 0], which names an item only when it
      is 0 (JavaScript's `-0` indexes like `0`). */
  function PoolIndex(idx: int, poolSize: nat): (r: Option<int>)
    ensures r.None? <==> poolSize == 0
    ensures poolSize > 0 ==> idx == poolSize * TruncatedQuot(idx, poolSize) + r.value
    ensures poolSize > 0 && 0 <= idx ==> 0 <= r.value < poolSize
    ensures poolSize > 0 && idx < 0 ==> -(poolSize as int) < r.value <= 0
    ensures poolSize > 0 && 0 <= idx < poolSize ==> r.value == idx
  {
    if poolSize == 0 then None
    else
      TruncatedDivision(idx, poolSize);
      Some(TruncatedRem(idx, poolSize))
  }

  /** The body `startSession` posts to sessions-next: `{ numQ, totalItems }`.
      It has no `userId`. */
  function StartRequest(minutes: int, poolSize: nat): (r: NextBody)
    ensures !ValidNext(r)
    ensures r.numQ == Some(QuestionCount(minutes)) && r.totalItems == Some(poolSize)
  {
    NextBody(None, Some(QuestionCount(minutes)), Some(poolSize))
  }

  /** The body `startSession` posts to sessions-save:
      `{ sessionId, minutes, items }`. It has no `userId` either. */
  function SaveRequest(sessionId: string, minutes: int, items: seq<int>): (r: SaveBody)
    ensures !ValidSave(r)
  {
    SaveBody(None, Some(sessionId), Some(minutes), Some(items))
  }

  /** The start request as the server expects it, naming the signed-in user. */
  function StartRequestFor(user: string, minutes: int, poolSize: nat): (r: NextBody)
    ensures ValidNext(r) <==> user != "" && poolSize > 0
  {
    NextBody(Some(user), Some(QuestionCount(minutes)), Some(poolSize))
  }

  /** The save request as the server expects it, naming the signed-in user. */
  function SaveRequestFor(user: string, sessionId: string, minutes: int, items: seq<int>): (r: SaveBody)
    ensures ValidSave(r) <==> user != "" && sessionId != "" && minutes != 0
  {
    SaveBody(Some(user), Some(sessionId), Some(minutes), Some(items))
  }
}

=== FILE: common.dfy ===
/** Helpers shared by the whole model: optional values, the truthiness rules
    JavaScript applies to request fields, and JavaScript's remainder. */
module Common {

  datatype Option<+T> = None | Some(value: T)

  /** A string field JavaScript treats as truthy: present and not "". */
  predicate Truthy(s: Option<string>)
  {
    s.Some? && s.value != ""
  }

  /** A numeric field JavaScript treats as truthy: present and not 0. */
  predicate TruthyNumber(n: Option<int>)
  {
    n.Some? && n.value != 0
  }

  function Abs(x: int): int
  {
    if x < 0 then -x else x
  }

  function Max0(x: int): nat
  {
    if x < 0 then 0 else x
  }

  /** The remainder of `a` by `m` for non-negative `a`: what is left after
      taking away `m` as often as it fits. */
  function NatRem(a: nat, m: nat): (r: nat)
    requires m > 0
    ensures r < m
    ensures a < m ==> r == a
    decreases a
  {
    if a < m then a else NatRem(a - m, m)
  }

  /** How often `m` fits into `a`: the quotient that goes with `NatRem`. */
  function NatQuot(a: nat, m: nat): nat
    requires m > 0
    decreases a
  {
    if a < m then 0 else NatQuot(a - m, m) + 1
  }

  /** `a` is the quotient times `m` plus the remainder. */
  lemma {:induction false} NatDivision(a: nat, m: nat)
    requires m > 0
    ensures a == NatQuot(a, m) * m + NatRem(a, m)
    decreases a
  {
    if a >= m {
      NatDivision(a - m, m);
      var q := NatQuot(a - m, m);
      assert (q + 1) * m == q * m + m;
    }
  }

  /** JavaScript's integer quotient `Math.trunc(a / b)`: rounded toward zero. */
  function TruncatedQuot(a: int, b: int): int
    requires b != 0
  {
    var q: int := if 0 <= a then NatQuot(a, Abs(b)) else NatQuot(-a, Abs(b));
    if (a < 0) == (b < 0) then q else -q
  }

  /** JavaScript's `a % b` on integers. JavaScript truncates the quotient
      toward zero, so the remainder takes the sign of the dividend; Dafny's
      own `%` is Euclidean and never negative. */
  function TruncatedRem(a: int, b: int): (r: int)
    requires b != 0
    ensures 0 <= a ==> 0 <= r < Abs(b)
    ensures a < 0 ==> -Abs(b) < r <= 0
    ensures 0 <= a < Abs(b) ==> r == a
  {
    if 0 <= a then NatRem(a, Abs(b)) else -(NatRem(-a, Abs(b)) as int)
  }

  /** The remainder completes the quotient rounded toward zero: together
      they determine `a % b`. Stated apart from `TruncatedRem` so that the
      multiplication stays out of every proof that only needs the bounds. */
  lemma TruncatedDivision(a: int, b: int)
    requires b != 0
    ensures a == b * TruncatedQuot(a, b) + TruncatedRem(a, b)
  {
    var m := Abs(b);
    if 0 <= a {
      NatDivision(a, m);
      QuotientSign(a, b, NatQuot(a, m), NatRem(a, m));
    } else {
      NatDivision(-a, m);
      QuotientSign(a, b, NatQuot(-a, m), NatRem(-a, m));
    }
  }

  /** Moving the signs of dividend and divisor onto quotient and remainder. */
  lemma QuotientSign(a: int, b: int, q: int, r: int)
    requires b != 0
    requires Abs(a) == q * Abs(b) + r
    ensures 0 <= a ==> a == b * (if b < 0 then -q else q) + r
    ensures a < 0 ==> a == b * (if b < 0 then q else -q) - r
  {
    if b < 0 {
      assert q * Abs(b) == b * -q;
    } else {
      assert b * -q == -(q * b);
    }
  }

  /** Two worked values: the remainder keeps the dividend's sign. */
  lemma RemainderExamples()
    ensures TruncatedRem(7, 3) == 1 && TruncatedQuot(7, 3) == 2
    ensures TruncatedRem(-7, 3) == -1 && TruncatedRem(7, -3) == 1
  {
    assert NatRem(7, 3) == NatRem(4, 3) == NatRem(1, 3) == 1;
  }

  /** Within one window of `m` consecutive numbers no two remainders agree. */
  lemma {:induction false} NatRemDistinct(a: nat, b: nat, m: nat)
    requires m > 0 && a < b < a + m
    ensures NatRem(a, m) != NatRem(b, m)
    decreases a
  {
    if a >= m {
      NatRemDistinct(a - m, b - m, m);
    } else if b >= m {
      assert NatRem(b, m) == NatRem(b - m, m) == b - m;
    }
  }

  /** Adding to a number adds to its remainder, reduced once more. */
  lemma {:induction false} NatRemAdd(a: nat, i: nat, m: nat)
    requires m > 0
    ensures NatRem(a + i, m) == NatRem(NatRem(a, m) + i, m)
    decreases a
  {
    if a >= m {
      NatRemAdd(a - m, i, m);
      assert NatRem(a + i, m) == NatRem(a - m + i, m);
    }
  }

  /** Decimal digit characters. */
  predicate IsDigit(c: char)
  {
    '0' <= c <= '9'
  }

  predicate AllDigits(s: string)
  {
    forall i :: 0 <= i < |s| ==> IsDigit(s[i])
  }
}

=== FILE: flows.dfy ===
/** Properties that span several function calls: the account lifecycle
    (register, login, verify, expiry), the session history (save then
    list), the invariants every sessions-store write keeps, and how the
    client's requests meet the server functions. */
module Flows {
  import opened Common
  import opened Stores
  import opened Http
  import opened AuthUtil
  import opened AuthHandlers
  import opened SessionsNext
  import opened SessionsHistory
  import opened Client

  /** Any name and password that pass registration's input checks, with the
      name still free, register; logging in with the same password then
      succeeds, since it is re-hashed with the stored salt. */
  lemma RegisterThenLogin(auth: AuthStore, u: string, p: string, pbkdf2: (string, string) -> string,
                          salt: Salt, salt2: Salt, token: Token, t1: int, t2: int)
    requires RegistrationError(Credentials(Some(u), Some(p))).None? && UserKey(u) !in auth
    ensures var r1 := Register(auth, "POST", Credentials(Some(u), Some(p)), pbkdf2, salt, t1);
            var r2 := Login(r1.store, "POST", Credentials(Some(u), Some(p)), pbkdf2, salt2, token, t2);
            && r1 == Reply(r1.store, 200, Registered)
            && r2.status == 200 && r2.body == LoggedIn(token)
  {
  }

  /** After a registration, a password whose hash under the stored salt
      differs is refused with the generic 401. */
  lemma RegisterThenWrongPassword(auth: AuthStore, u: string, p: string, q: string,
                                  pbkdf2: (string, string) -> string, salt: Salt, salt2: Salt, token: Token, t1: int, t2: int)
    requires RegistrationError(Credentials(Some(u), Some(p))).None? && UserKey(u) !in auth
    requires q != "" && pbkdf2(q, salt) != pbkdf2(p, salt)
    ensures var a1 := Register(auth, "POST", Credentials(Some(u), Some(p)), pbkdf2, salt, t1).store;
            Login(a1, "POST", Credentials(Some(u), Some(q)), pbkdf2, salt2, token, t2) == Reply(a1, 401, Error(BadCredentials))
  {
  }

  /** A name can be registered once: every later attempt fails and changes
      nothing, with 409 whenever its fields pass the input checks. */
  lemma RegisterTwice(auth: AuthStore, u: string, p: string, q: string,
                      pbkdf2: (string, string) -> string, salt: Salt, salt2: Salt, t1: int, t2: int)
    requires RegistrationError(Credentials(Some(u), Some(p))).None? && UserKey(u) !in auth
    ensures var a1 := Register(auth, "POST", Credentials(Some(u), Some(p)), pbkdf2, salt, t1).store;
            var r := Register(a1, "POST", Credentials(Some(u), Some(q)), pbkdf2, salt2, t2);
            && r.status != 200
            && r.store == a1
            && (RegistrationError(Credentials(Some(u), Some(q))).None? ==> r.status == 409)
  {
  }

  /** A login with a matching password issues a token that verifies to the
      login name until its expiry instant, inclusive. */
  lemma IssuedTokenVerifies(auth: AuthStore, body: Credentials, pbkdf2: (string, string) -> string,
                            salt: Salt, token: Token, now: int, later: int)
    requires BothGiven(body) && PasswordMatches(auth, body.username.value, body.password.value, pbkdf2, salt)
    requires later <= now + DayMs
    ensures var a1 := Login(auth, "POST", body, pbkdf2, salt, token, now).store;
            Verify(a1, "GET", Some(Bearer + token), later) == Reply(a1, 200, Authenticated(body.username.value))
  {
    BearerHeaderToken(token);
  }

  /** After its expiry instant the token is refused and deleted, and every
      later check of it is refused as well. */
  lemma IssuedTokenExpires(auth: AuthStore, body: Credentials, pbkdf2: (string, string) -> string,
                           salt: Salt, token: Token, now: int, later: int, evenLater: int)
    requires BothGiven(body) && PasswordMatches(auth, body.username.value, body.password.value, pbkdf2, salt)
    requires later > now + DayMs
    ensures var a1 := Login(auth, "POST", body, pbkdf2, salt, token, now).store;
            var r := Verify(a1, "GET", Some(Bearer + token), later);
            && r == Reply(a1 - {TokenKey(token)}, 401, Error(InvalidToken))
            && Verify(r.store, "GET", Some(Bearer + token), evenLater) == Reply(r.store, 401, Error(InvalidToken))
  {
    BearerHeaderToken(token);
    var a1 := Login(auth, "POST", body, pbkdf2, salt, token, now).store;
    ExpiredStaysInvalid(a1, token, later, evenLater);
  }

  /** Saving a session and then listing as that user (with a token that
      verifies to the same name) shows the saved session last. */
  lemma SaveThenList(s: SessionStore, body: SaveBody, startedAt: string,
                     auth: AuthStore, authorization: Option<string>, now: int)
    requires Save(s, "POST", body, startedAt).status == 200
    requires HeaderToken(authorization) != ""
    requires VerifyToken(auth, HeaderToken(authorization), now).username == body.userId
    ensures var r := List(auth, Save(s, "POST", body, startedAt).store, "GET", authorization, now);
            && r.status == 200
            && |r.body.sessions| >= 1
            && r.body.sessions[|r.body.sessions| - 1] ==
                 Summary(body.sessionId.value, startedAt, body.minutes.value, body.items.value)
            && r.body.sessions[..|r.body.sessions| - 1] == ReadList(s, ListKey(body.userId.value))
  {
  }

  /** Every cursor in the sessions store is non-negative. */
  ghost predicate CursorsNonNegative(s: SessionStore)
  {
    forall k :: k in s && s[k].CursorText? ==> s[k].cursor >= 0
  }

  /** Every entry of every user's list has a full record under its key. */
  ghost predicate ListedSessionsRecorded(s: SessionStore)
  {
    forall u :: ListKey(u) in s && s[ListKey(u)].ListEntry? ==>
      forall e :: e in s[ListKey(u)].entries ==>
        RecordKey(u, e.sessionId) in s && s[RecordKey(u, e.sessionId)].RecordEntry?
  }

  ghost predicate SessionStoreOk(s: SessionStore)
  {
    CursorsNonNegative(s) && ListedSessionsRecorded(s)
  }

  lemma NextKeepsStoreOk(s: SessionStore, httpMethod: string, body: NextBody, sessionId: GeneratedId)
    requires SessionStoreOk(s)
    ensures SessionStoreOk(Next(s, httpMethod, body, sessionId).store)
  {
    var r := Next(s, httpMethod, body, sessionId);
    if r.status == 200 {
      var key := CursorKey(body.userId.value);
      forall u | ListKey(u) in r.store && r.store[ListKey(u)].ListEntry?
        ensures forall e :: e in r.store[ListKey(u)].entries ==>
                  RecordKey(u, e.sessionId) in r.store && r.store[RecordKey(u, e.sessionId)].RecordEntry?
      {
        SessionKeysDistinct(body.userId.value, u, u, "");
        assert r.store[ListKey(u)] == s[ListKey(u)];
        forall e | e in r.store[ListKey(u)].entries
          ensures RecordKey(u, e.sessionId) in r.store && r.store[RecordKey(u, e.sessionId)].RecordEntry?
        {
          SessionKeysDistinct(body.userId.value, u, u, e.sessionId);
        }
      }
    }
  }

  lemma SaveKeepsStoreOk(s: SessionStore, httpMethod: string, body: SaveBody, startedAt: string)
    requires SessionStoreOk(s)
    ensures SessionStoreOk(Save(s, httpMethod, body, startedAt).store)
  {
    var r := Save(s, httpMethod, body, startedAt);
    if r.status == 200 {
      var owner := body.userId.value;
      var recordKey := RecordKey(owner, body.sessionId.value);
      var listKey := ListKey(owner);
      forall k | k in r.store && r.store[k].CursorText?
        ensures r.store[k].cursor >= 0
      {
        SessionKeysDistinct("", owner, owner, body.sessionId.value);
      }
      forall u | ListKey(u) in r.store && r.store[ListKey(u)].ListEntry?
        ensures forall e :: e in r.store[ListKey(u)].entries ==>
                  RecordKey(u, e.sessionId) in r.store && r.store[RecordKey(u, e.sessionId)].RecordEntry?
      {
        KeysInjective(u, owner);
        SessionKeysDistinct("", u, owner, body.sessionId.value);
        forall e | e in r.store[ListKey(u)].entries
          ensures RecordKey(u, e.sessionId) in r.store && r.store[RecordKey(u, e.sessionId)].RecordEntry?
        {
          SessionKeysDistinct("", owner, u, e.sessionId);
          if u == owner && e !in ReadList(s, listKey) {
            assert e == r.store[listKey].entries[|r.store[listKey].entries| - 1];
          }
        }
      }
    }
  }

  /** As written, the client's start request has no `userId`, so
      sessions-next refuses every session start. */
  lemma ClientStartIsRejected(s: SessionStore, minutes: int, poolSize: nat, sessionId: GeneratedId)
    ensures Next(s, "POST", StartRequest(minutes, poolSize), sessionId) == Reply(s, 400, Error(MissingFields))
  {
  }

  /** As written, the client's save request has no `userId` either, so
      sessions-save refuses it. */
  lemma ClientSaveIsRejected(s: SessionStore, sessionId: string, minutes: int, items: seq<int>, startedAt: string)
    ensures Save(s, "POST", SaveRequest(sessionId, minutes, items), startedAt) == Reply(s, 400, Error(MissingFields))
  {
  }

  /** The save defect is latent behind the start defect: once the start
      request names the user and is served, the save the client then posts
      with the returned session id and indices is still refused. */
  lemma ServedStartThenSaveIsRejected(s: SessionStore, user: string, minutes: int, poolSize: nat,
                                      sessionId: GeneratedId, startedAt: string)
    requires user != "" && poolSize > 0
    ensures var start := Next(s, "POST", StartRequestFor(user, minutes, poolSize), sessionId);
            && start.status == 200
            && Save(start.store, "POST", SaveRequest(start.body.sessionId, minutes, start.body.indices), startedAt)
                 == Reply(start.store, 400, Error(MissingFields))
  {
  }

  /** With the user named, a start request from a non-empty pool is
      served: it gets as many indices as the session length asks for, each
      a valid pool position, which the client's own reduction leaves as
      they are. */
  lemma ClientStartWithUserIsServed(s: SessionStore, user: string, minutes: int, poolSize: nat, sessionId: GeneratedId)
    requires user != "" && poolSize > 0
    requires CursorsNonNegative(s)
    ensures var r := Next(s, "POST", StartRequestFor(user, minutes, poolSize), sessionId);
            && r.status == 200
            && |r.body.indices| == QuestionCount(minutes)
            && forall i :: 0 <= i < |r.body.indices| ==>
                 0 <= r.body.indices[i] < poolSize && PoolIndex(r.body.indices[i], poolSize) == Some(r.body.indices[i])
  {
  }

  /** With the user named, the save request the client sends after a
      start is stored and appended to that user's list. */
  lemma ClientSaveWithUserIsStored(s: SessionStore, user: string, sessionId: string, minutes: int,
                                   items: seq<int>, startedAt: string)
    requires user != "" && sessionId != "" && minutes != 0
    ensures var r := Save(s, "POST", SaveRequestFor(user, sessionId, minutes, items), startedAt);
            && r.status == 200
            && ReadList(r.store, ListKey(user)) == ReadList(s, ListKey(user)) + [Summary(sessionId, startedAt, minutes, items)]
  {
  }
}

=== FILE: http.dfy ===
/** Responses of the functions, and the `Authorization` header parsing two
    of them share. A response is a status code and a JSON body; each body
    shape the functions produce is one constructor. */
module Http {
  import opened Common
  import opened Stores

  datatype Body =
    | Error(message: string)                          // { error }
    | Registered                                      // { success: true }
    | LoggedIn(token: string)                         // { token }
    | Authenticated(username: string)                 // { username, authenticated: true }
    | Allocated(indices: seq<int>, sessionId: string) // { indices, sessionId }
    | Saved                                           // { ok: true }
    | Listed(sessions: seq<Summary>)                  // { sessions }

  /** A handler's result: the store it leaves behind and its response. */
  datatype Reply<S> = Reply(store: S, status: int, body: Body)

  const MethodNotAllowed := "Method not allowed"
  const InvalidToken := "Invalid or expired token"
  const MissingFields := "Missing fields"

  const Bearer := "Bearer "

  /** `Bearer ` occurs in `s` starting at index `i`. */
  ghost predicate BearerAt(s: string, i: int)
  {
    0 <= i && i + 7 <= |s| && s[i..i + 7] == Bearer
  }

  /** The first occurrence of `Bearer ` in `s` starts at `i`. */
  ghost predicate FirstBearerAt(s: string, i: int)
  {
    BearerAt(s, i) && forall j :: 0 <= j < i ==> !BearerAt(s, j)
  }

  /** `s.replace('Bearer ', '')`: a string pattern makes JavaScript remove
      only the FIRST occurrence, wherever it is, not only a leading one. */
  function StripBearer(s: string): (r: string)
    ensures |r| == |s| || |r| + 7 == |s|
    ensures |s| < 7 ==> r == s
  {
    if |s| < 7 then s
    else if s[..7] == Bearer then s[7..]
    else [s[0]] + StripBearer(s[1..])
  }

  /** An occurrence at `i >= 1` in `s` is one at `i - 1` in `s[1..]`. */
  lemma BearerShift(s: string, i: int)
    requires 1 <= i && 1 <= |s|
    ensures BearerAt(s, i) <==> BearerAt(s[1..], i - 1)
  {
    if i + 7 <= |s| {
      var u, v := s[1..][i - 1..i - 1 + 7], s[i..i + 7];
      assert |u| == 7 == |v|;
      forall k | 0 <= k < 7
        ensures u[k] == v[k]
      {
        assert u[k] == s[i + k];
      }
      assert u == v;
    }
  }

  /** A first occurrence past index 0 is the first occurrence in `s[1..]`,
      one position earlier. */
  lemma FirstBearerShift(s: string, i: int)
    requires !BearerAt(s, 0) && FirstBearerAt(s, i)
    ensures i >= 1 && FirstBearerAt(s[1..], i - 1)
    ensures [s[0]] + s[1..][..i - 1] == s[..i] && s[1..][i - 1 + 7..] == s[i + 7..]
  {
    BearerShift(s, i);
    forall j | 0 <= j < i - 1
      ensures !BearerAt(s[1..], j)
    {
      BearerShift(s, j + 1);
    }
  }

  /** Stripping leaves a header without `Bearer ` as it is, and otherwise
      cuts out exactly the first occurrence. */
  lemma {:induction false} StripBearerRemovesFirst(s: string)
    ensures (forall i :: !BearerAt(s, i)) ==> StripBearer(s) == s
    ensures forall i :: FirstBearerAt(s, i) ==> StripBearer(s) == s[..i] + s[i + 7..]
    decreases |s|
  {
    if |s| < 7 {
    } else if s[..7] == Bearer {
      assert BearerAt(s, 0);
      forall i | FirstBearerAt(s, i)
        ensures StripBearer(s) == s[..i] + s[i + 7..]
      {
        assert i == 0;
      }
    } else {
      assert !BearerAt(s, 0);
      StripBearerRemovesFirst(s[1..]);
      var r := StripBearer(s[1..]);
      if forall i :: !BearerAt(s, i) {
        forall k | 0 <= k
          ensures !BearerAt(s[1..], k)
        {
          BearerShift(s, k + 1);
        }
        assert [s[0]] + s[1..] == s;
      }
      forall i | FirstBearerAt(s, i)
        ensures StripBearer(s) == s[..i] + s[i + 7..]
      {
        FirstBearerShift(s, i);
        assert r == s[1..][..i - 1] + s[1..][i - 1 + 7..];
      }
    }
  }

  /** The token a handler reads from its `Authorization` header; "" stands
      for both `null` (no header, or an empty one) and an empty remainder,
      which the handlers reject alike. */
  function HeaderToken(authorization: Option<string>): (r: string)
    ensures !Truthy(authorization) ==> r == ""
    ensures Truthy(authorization) && (forall i :: !BearerAt(authorization.value, i)) ==> r == authorization.value
    ensures Truthy(authorization) ==>
              forall i :: FirstBearerAt(authorization.value, i) ==>
                r == authorization.value[..i] + authorization.value[i + 7..]
  {
    if Truthy(authorization) then
      StripBearerRemovesFirst(authorization.value);
      StripBearer(authorization.value)
    else ""
  }

  /** A header of the form `Bearer <t>` yields exactly `t`. */
  lemma BearerHeaderToken(t: string)
    ensures HeaderToken(Some(Bearer + t)) == t
  {
    assert (Bearer + t)[..7] == Bearer;
    assert (Bearer + t)[7..] == t;
  }
}

=== FILE: markup.dfy ===
/** `escapeHTML` of the browser client: the five characters that matter in
    HTML text and attributes are replaced by character references. */
module Markup {
  import opened Common

  /** The characters `escapeHTML` replaces. */
  predicate IsSpecial(c: char)
  {
    c == '&' || c == '<' || c == '>' || c == '"' || c == '\''
  }

  function EntityOf(c: char): string
  {
    match c
    case '&' => "&amp;"
    case '<' => "&lt;"
    case '>' => "&gt;"
    case '"' => "&quot;"
    case '\'' => "&#39;"
    case _ => [c]
  }

  /** `str.replace(/[&<>"']/g, ...)`. The result holds no `<`, `>`, `"` or
      `'`. */
  function Escape(s: string): (r: string)
    ensures forall i :: 0 <= i < |r| ==> r[i] != '<' && r[i] != '>' && r[i] != '"' && r[i] != '\''
    ensures |r| >= |s|
    decreases |s|
  {
    if |s| == 0 then "" else EntityOf(s[0]) + Escape(s[1..])
  }

  /** `escapeHTML(str)`: null, undefined and "" all give "". */
  function EscapeHtml(str: Option<string>): (r: string)
    ensures !Truthy(str) ==> r == ""
    ensures Truthy(str) ==> r == Escape(str.value) && Unescape(r) == str.value
    ensures Truthy(str) ==> |r| >= |str.value|
  {
    if Truthy(str) then
      UnescapeEscape(str.value);
      Escape(str.value)
    else ""
  }

  predicate StartsWith(t: string, p: string)
  {
    |p| <= |t| && t[..|p|] == p
  }

  /** Decodes the five references `Escape` writes and keeps everything else. */
  function Unescape(t: string): string
    decreases |t|
  {
    if |t| == 0 then ""
    else if StartsWith(t, "&amp;") then "&" + Unescape(t[5..])
    else if StartsWith(t, "&lt;") then "<" + Unescape(t[4..])
    else if StartsWith(t, "&gt;") then ">" + Unescape(t[4..])
    else if StartsWith(t, "&quot;") then "\"" + Unescape(t[6..])
    else if StartsWith(t, "&#39;") then "'" + Unescape(t[5..])
    else [t[0]] + Unescape(t[1..])
  }

  /** A mismatch at index `i` rules a prefix out. */
  lemma Mismatch(t: string, p: string, i: nat)
    requires i < |p| && i < |t| && t[i] != p[i]
    ensures !StartsWith(t, p)
  {
  }

  lemma StartsWithPrefix(p: string, rest: string)
    ensures StartsWith(p + rest, p) && (p + rest)[|p|..] == rest
  {
    assert (p + rest)[..|p|] == p;
  }

  lemma UnescapeEntity(c: char, rest: string)
    ensures Unescape(EntityOf(c) + rest) == [c] + Unescape(rest)
  {
    var t := EntityOf(c) + rest;
    StartsWithPrefix(EntityOf(c), rest);
    if c == '&' {
    } else if c == '<' {
      Mismatch(t, "&amp;", 1);
    } else if c == '>' {
      Mismatch(t, "&amp;", 1);
      Mismatch(t, "&lt;", 1);
    } else if c == '"' {
      Mismatch(t, "&amp;", 1);
      Mismatch(t, "&lt;", 1);
      Mismatch(t, "&gt;", 1);
    } else if c == '\'' {
      Mismatch(t, "&amp;", 1);
      Mismatch(t, "&lt;", 1);
      Mismatch(t, "&gt;", 1);
      Mismatch(t, "&quot;", 1);
    } else {
      assert t[0] == c;
      Mismatch(t, "&amp;", 0);
      Mismatch(t, "&lt;", 0);
      Mismatch(t, "&gt;", 0);
      Mismatch(t, "&quot;", 0);
      Mismatch(t, "&#39;", 0);
    }
  }

  /** Escaping loses nothing: decoding the references gives the text back. */
  lemma {:induction false} UnescapeEscape(s: string)
    ensures Unescape(Escape(s)) == s
    decreases |s|
  {
    if |s| > 0 {
      UnescapeEntity(s[0], Escape(s[1..]));
      UnescapeEscape(s[1..]);
      assert s == [s[0]] + s[1..];
    }
  }

  /** One of the five references `Escape` writes starts `t`. */
  predicate RefAt(t: string)
  {
    StartsWith(t, "&amp;") || StartsWith(t, "&lt;") || StartsWith(t, "&gt;")
    || StartsWith(t, "&quot;") || StartsWith(t, "&#39;")
  }

  /** Every `&` in escaped text begins a reference: no ampersand of the
      input survives raw. */
  lemma EscapedAmpersands(s: string)
    ensures forall i :: 0 <= i < |Escape(s)| && Escape(s)[i] == '&' ==> RefAt(Escape(s)[i..])
  {
    forall i | 0 <= i < |Escape(s)| && Escape(s)[i] == '&'
      ensures RefAt(Escape(s)[i..])
    {
      AmpersandAt(s, i);
    }
  }

  lemma {:induction false} AmpersandAt(s: string, i: int)
    requires 0 <= i < |Escape(s)| && Escape(s)[i] == '&'
    ensures RefAt(Escape(s)[i..])
    decreases |s|
  {
    var e, rest := EntityOf(s[0]), Escape(s[1..]);
    assert Escape(s) == e + rest;
    if i < |e| {
      assert IsSpecial(s[0]) && i == 0;
      StartsWithPrefix(e, rest);
    } else {
      AmpersandAt(s[1..], i - |e|);
      assert Escape(s)[i..] == rest[i - |e|..];
    }
  }

  /** Text without any of the five characters passes through unchanged. */
  lemma {:induction false} EscapeKeepsPlainText(s: string)
    requires forall i :: 0 <= i < |s| ==> !IsSpecial(s[i])
    ensures Escape(s) == s
    decreases |s|
  {
    if |s| > 0 {
      EscapeKeepsPlainText(s[1..]);
      assert s == [s[0]] + s[1..];
    }
  }
}

=== FILE: sessions_history.dfy ===
/** POST /sessions-save and GET /sessions-list: a user's session history.
    Saving writes the full record and then appends a summary to the user's
    list; listing is gated by a login token and returns that list. */
module SessionsHistory {
  import opened Common
  import opened Stores
  import opened Http
  import opened AuthUtil

  /** The parsed JSON body `{ userId, sessionId, minutes, items }`. */
  datatype SaveBody = SaveBody(userId: Option<string>, sessionId: Option<string>, minutes: Option<int>, items: Option<seq<int>>)

  const AuthRequired := "Authentication required"

  /** All fields truthy. `items` is an array, and JavaScript treats every
      array, the empty one included, as truthy. */
  predicate ValidSave(body: SaveBody)
  {
    Truthy(body.userId) && Truthy(body.sessionId) && TruthyNumber(body.minutes) && body.items.Some?
  }

  /** POST /sessions-save; `startedAt` is the ISO-8601 text of the clock. */
  function Save(s: SessionStore, httpMethod: string, body: SaveBody, startedAt: string): (r: Reply<SessionStore>)
    ensures httpMethod != "POST" ==> r == Reply(s, 405, Error(MethodNotAllowed))
    ensures httpMethod == "POST" && !ValidSave(body) ==> r == Reply(s, 400, Error(MissingFields))
    ensures r.status == 200 <==> httpMethod == "POST" && ValidSave(body)
    ensures r.status == 200 ==>
              var userId := body.userId.value;
              var recordKey := RecordKey(userId, body.sessionId.value);
              var listKey := ListKey(userId);
              var record := SessionRecord(body.sessionId.value, userId, startedAt, body.minutes.value, body.items.value);
              && r.body == Saved
              && r.store.Keys == s.Keys + {recordKey, listKey}
              && (forall k :: k in s && k != recordKey && k != listKey ==> r.store[k] == s[k])
              && r.store[recordKey] == RecordEntry(record)
              && r.store[listKey] == ListEntry(ReadList(s, listKey) + [SummaryOf(record)])
  {
    if httpMethod != "POST" then Reply(s, 405, Error(MethodNotAllowed))
    else if !ValidSave(body) then Reply(s, 400, Error(MissingFields))
    else
      var userId := body.userId.value;
      var sessionId := body.sessionId.value;
      var recordKey := RecordKey(userId, sessionId);
      var record := SessionRecord(sessionId, userId, startedAt, body.minutes.value, body.items.value);
      var s1 := s[recordKey := RecordEntry(record)];
      var listKey := ListKey(userId);
      SessionKeysDistinct("", userId, userId, sessionId);
      var list := ReadList(s1, listKey);
      Reply(s1[listKey := ListEntry(list + [SummaryOf(record)])], 200, Saved)
  }

  /** GET /sessions-list. Only the auth store can change (an expired token
      is deleted); the sessions store is only read. */
  function List(auth: AuthStore, sessions: SessionStore, httpMethod: string, authorization: Option<string>, now: int): (r: Reply<AuthStore>)
    ensures httpMethod != "GET" ==> r == Reply(auth, 405, Error(MethodNotAllowed))
    ensures httpMethod == "GET" && HeaderToken(authorization) == "" ==> r == Reply(auth, 401, Error(AuthRequired))
    ensures httpMethod == "GET" && HeaderToken(authorization) != "" ==>
              var v := VerifyToken(auth, HeaderToken(authorization), now);
              && r.store == v.store
              && (Truthy(v.username) ==> r.status == 200 && r.body == Listed(ReadList(sessions, ListKey(v.username.value))))
              && (!Truthy(v.username) ==> r.status == 401 && r.body == Error(InvalidToken))
  {
    if httpMethod != "GET" then Reply(auth, 405, Error(MethodNotAllowed))
    else
      var token := HeaderToken(authorization);
      if token == "" then Reply(auth, 401, Error(AuthRequired))
      else
        var v := VerifyToken(auth, token, now);
        if !Truthy(v.username) then Reply(v.store, 401, Error(InvalidToken))
        else Reply(v.store, 200, Listed(ReadList(sessions, ListKey(v.username.value))))
  }

  /** A request that is not let through never depends on the sessions
      store: every refusal is the same whatever that store holds. */
  lemma ListRefusalIgnoresSessions(auth: AuthStore, s1: SessionStore, s2: SessionStore,
                                   httpMethod: string, authorization: Option<string>, now: int)
    requires List(auth, s1, httpMethod, authorization, now).status != 200
    ensures List(auth, s1, httpMethod, authorization, now) == List(auth, s2, httpMethod, authorization, now)
  {
  }
}

=== FILE: sessions_next.dfy ===
/** POST /sessions-next: the per-user cursor allocator. It reads the
    user's cursor (0 when absent), hands out `numQ` consecutive positions
    reduced modulo `totalItems`, and stores the advanced cursor. The user
    is whatever `userId` the request body names; no token is checked. */
module SessionsNext {
  import opened Common
  import opened Stores
  import opened Http

  /** The parsed JSON body `{ userId, numQ, totalItems }`. */
  datatype NextBody = NextBody(userId: Option<string>, numQ: Option<int>, totalItems: Option<int>)

  predicate IsBase36(s: string)
  {
    forall i :: 0 <= i < |s| ==> s[i] in "0123456789abcdefghijklmnopqrstuvwxyz"
  }

  /** A session id as the function builds it: base-36 digits taken from two
      `Math.random()` values and the clock. The random parts are a
      parameter of the model. */
  type GeneratedId = s: string | IsBase36(s) witness ""

  /** The indices the allocation loop pushes, starting at `cursor`: one per
      iteration, each the current position `%` the pool size. */
  function Indices(cursor: int, count: int, poolSize: int): (r: seq<int>)
    requires poolSize != 0
    ensures |r| == Max0(count)
    ensures forall i :: 0 <= i < |r| ==> r[i] == TruncatedRem(cursor + i, poolSize)
    decreases count
  {
    if count <= 0 then [] else [TruncatedRem(cursor, poolSize)] + Indices(cursor + 1, count - 1, poolSize)
  }

  predicate ValidNext(body: NextBody)
  {
    Truthy(body.userId) && TruthyNumber(body.numQ) && TruthyNumber(body.totalItems)
  }

  /** POST /sessions-next. */
  function Next(s: SessionStore, httpMethod: string, body: NextBody, sessionId: GeneratedId): (r: Reply<SessionStore>)
    ensures httpMethod != "POST" ==> r == Reply(s, 405, Error(MethodNotAllowed))
    ensures httpMethod == "POST" && !ValidNext(body) ==> r == Reply(s, 400, Error(MissingFields))
    ensures r.status == 200 <==> httpMethod == "POST" && ValidNext(body)
    ensures r.status == 200 ==>
              var key := CursorKey(body.userId.value);
              var c := ReadCursor(s, key);
              var n := body.numQ.value;
              var p := body.totalItems.value;
              && r.body.Allocated?
              && r.body.sessionId == sessionId
              && |r.body.indices| == Max0(n)
              && (forall i :: 0 <= i < |r.body.indices| ==> r.body.indices[i] == TruncatedRem(c + i, p))
              && (0 <= c ==> forall i :: 0 <= i < |r.body.indices| ==> 0 <= r.body.indices[i] < Abs(p))
              && r.store.Keys == s.Keys + {key}
              && (forall k :: k in s && k != key ==> r.store[k] == s[k])
              && r.store[key].CursorText?
              && ReadCursor(r.store, key) == c + Max0(n)
  {
    if httpMethod != "POST" then Reply(s, 405, Error(MethodNotAllowed))
    else if !ValidNext(body) then Reply(s, 400, Error(MissingFields))
    else
      var key := CursorKey(body.userId.value);
      var current := ReadCursor(s, key);
      var n := body.numQ.value;
      var indices := Indices(current, n, body.totalItems.value);
      Reply(s[key := CursorText(current + Max0(n))], 200, Allocated(indices, sessionId))
  }

  /** Two allocations of `n` and then `m` hand out exactly what one
      allocation of `n + m` would. */
  lemma {:induction false} IndicesCompose(cursor: int, n: nat, m: nat, poolSize: int)
    requires poolSize != 0
    ensures Indices(cursor, n, poolSize) + Indices(cursor + n, m, poolSize) == Indices(cursor, n + m, poolSize)
  {
    var a := Indices(cursor, n, poolSize) + Indices(cursor + n, m, poolSize);
    forall i | 0 <= i < n + m
      ensures a[i] == Indices(cursor, n + m, poolSize)[i]
    {
      if i >= n {
        assert a[i] == Indices(cursor + n, m, poolSize)[i - n];
      }
    }
  }

  /** One single-question request hands out the reduced cursor and moves
      the cursor one on. */
  lemma NextOne(s: SessionStore, userId: string, poolSize: int)
    requires userId != "" && poolSize != 0
    ensures var c := ReadCursor(s, CursorKey(userId));
            var reply := Next(s, "POST", NextBody(Some(userId), Some(1), Some(poolSize)), "");
            && reply.body.indices == Indices(c, 1, poolSize)
            && ReadCursor(reply.store, CursorKey(userId)) == c + 1
  {
    var reply := Next(s, "POST", NextBody(Some(userId), Some(1), Some(poolSize)), "");
    assert |reply.body.indices| == 1;
  }

  /** After `k - 1` requests from cursor `c`, one more extends the
      allocation to `k` items and moves the cursor to `c + k`. */
  lemma AppendOne(store: SessionStore, handed: seq<int>, userId: string, poolSize: int, c: int, k: nat)
    requires userId != "" && poolSize != 0 && k > 0
    requires ReadCursor(store, CursorKey(userId)) == c + k - 1
    requires handed == Indices(c, k - 1, poolSize)
    ensures var reply := Next(store, "POST", NextBody(Some(userId), Some(1), Some(poolSize)), "");
            && handed + reply.body.indices == Indices(c, k, poolSize)
            && ReadCursor(reply.store, CursorKey(userId)) == c + k
  {
    var reply := Next(store, "POST", NextBody(Some(userId), Some(1), Some(poolSize)), "");
    NextOne(store, userId, poolSize);
    ExtendIndices(handed, reply.body.indices, c, k, poolSize);
  }

  /** The allocation of `k - 1` items followed by the single item at
      `c + k - 1` is the allocation of `k`. */
  lemma ExtendIndices(handed: seq<int>, next: seq<int>, c: int, k: nat, poolSize: int)
    requires poolSize != 0 && k > 0
    requires handed == Indices(c, k - 1, poolSize) && next == Indices(c + k - 1, 1, poolSize)
    ensures handed + next == Indices(c, k, poolSize)
  {
    var whole := Indices(c, k, poolSize);
    forall i | 0 <= i < k
      ensures (handed + next)[i] == whole[i]
    {
      if i == k - 1 {
        assert next[0] == TruncatedRem(c + i, poolSize);
      }
    }
  }

  /** `k` sequential one-question requests for `userId` with a fixed pool
      size: the store afterwards and the indices handed out, in order.
      They continue from wherever the cursor stood: together they hand out
      exactly what one allocation of `k` from that cursor would, and the
      cursor ends `k` further on. */
  function Repeated(s: SessionStore, userId: string, poolSize: int, k: nat): (r: (SessionStore, seq<int>))
    requires userId != "" && poolSize != 0
    ensures r.1 == Indices(ReadCursor(s, CursorKey(userId)), k, poolSize)
    ensures ReadCursor(r.0, CursorKey(userId)) == ReadCursor(s, CursorKey(userId)) + k
    decreases k
  {
    if k == 0 then (s, [])
    else
      var c := ReadCursor(s, CursorKey(userId));
      var prev := Repeated(s, userId, poolSize, k - 1);
      var reply := Next(prev.0, "POST", NextBody(Some(userId), Some(1), Some(poolSize)), "");
      AppendOne(prev.0, prev.1, userId, poolSize, c, k);
      (reply.store, prev.1 + reply.body.indices)
  }

  /** A user with no cursor yet who asks `P` times for one question from a
      pool of `P` gets 0, 1, ..., P-1: every item exactly once, in order. */
  lemma FirstCycleVisitsEachItemOnce(s: SessionStore, userId: string, poolSize: int)
    requires userId != "" && poolSize > 0
    requires CursorKey(userId) !in s
    ensures Repeated(s, userId, poolSize, poolSize).1 == seq(poolSize, i => i)
  {
  }

  /** From any non-negative cursor, one allocation of `P` questions from a
      pool of `P` hands out every item exactly once: no two positions
      agree, and every item appears. */
  lemma CycleIsPermutation(c: int, poolSize: int)
    requires 0 <= c && 0 < poolSize
    ensures var r := Indices(c, poolSize, poolSize);
            && (forall i, j :: 0 <= i < j < |r| ==> r[i] != r[j])
            && (forall v :: 0 <= v < poolSize ==> v in r)
  {
    var r := Indices(c, poolSize, poolSize);
    forall i, j | 0 <= i < j < |r|
      ensures r[i] != r[j]
    {
      CycleDistinctAt(c, poolSize, i, j);
    }
    forall v | 0 <= v < poolSize
      ensures v in r
    {
      var i := CycleHit(c, poolSize, v);
      assert r[i] == v;
    }
  }

  /** Two different positions of one cycle hold different items. */
  lemma CycleDistinctAt(c: int, poolSize: int, i: int, j: int)
    requires 0 <= c && 0 < poolSize && 0 <= i < j < poolSize
    ensures Indices(c, poolSize, poolSize)[i] != Indices(c, poolSize, poolSize)[j]
  {
    CycleEntry(c, poolSize, i);
    CycleEntry(c, poolSize, j);
    NatRemDistinct(c + i, c + j, poolSize);
  }

  /** Where item `v` sits in the cycle starting at `c`. */
  lemma CycleHit(c: int, poolSize: int, v: int) returns (i: int)
    requires 0 <= c && 0 < poolSize && 0 <= v < poolSize
    ensures 0 <= i < poolSize && Indices(c, poolSize, poolSize)[i] == v
  {
    var start := NatRem(c, poolSize);
    i := if start <= v then v - start else v - start + poolSize;
    CycleEntry(c, poolSize, i);
    NatRemAdd(c, i, poolSize);
  }

  /** From a non-negative cursor the `i`-th index is a natural remainder. */
  lemma CycleEntry(c: int, poolSize: int, i: int)
    requires 0 <= c && 0 < poolSize && 0 <= i < poolSize
    ensures Indices(c, poolSize, poolSize)[i] == NatRem(c + i, poolSize)
  {
  }
}

=== FILE: stores.dfy ===
/** The two key-value stores the functions share, as immutable maps.

    The auth store holds user records under `user:<username>` and login
    tokens under `session:<token>`; the sessions store holds per-user
    cursors under `cursor:<userId>`, session records under
    `session:<userId>:<sessionId>` and per-user session lists under
    `list:<userId>`. Both stores use the `session:` prefix, so they are two
    distinct maps. Each value is tagged with the kind of record it holds; a
    reader that finds a value of another kind treats the key as absent. */
module Stores {
  import opened Common

  datatype UserRecord = UserRecord(username: string, passwordHash: string, passwordSalt: string, createdAt: int)

  /** A login token record; times are milliseconds since the epoch. */
  datatype TokenRecord = TokenRecord(username: string, expiresAt: int, createdAt: int)

  datatype AuthValue = UserEntry(user: UserRecord) | TokenEntry(token: TokenRecord)

  type AuthStore = map<string, AuthValue>

  datatype SessionRecord = SessionRecord(sessionId: string, userId: string, startedAt: string, minutes: int, items: seq<int>)

  /** The entry appended to a user's session list. */
  datatype Summary = Summary(sessionId: string, startedAt: string, minutes: int, items: seq<int>)

  /** A cursor is stored as decimal text; the model keeps the parsed integer. */
  datatype SessionValue =
    | CursorText(cursor: int)
    | RecordEntry(record: SessionRecord)
    | ListEntry(entries: seq<Summary>)

  type SessionStore = map<string, SessionValue>

  function UserKey(username: string): string
  {
    "user:" + username
  }

  function TokenKey(token: string): string
  {
    "session:" + token
  }

  function CursorKey(userId: string): string
  {
    "cursor:" + userId
  }

  function RecordKey(userId: string, sessionId: string): string
  {
    "session:" + userId + ":" + sessionId
  }

  function ListKey(userId: string): string
  {
    "list:" + userId
  }

  function SummaryOf(record: SessionRecord): Summary
  {
    Summary(record.sessionId, record.startedAt, record.minutes, record.items)
  }

  function ReadUser(auth: AuthStore, key: string): Option<UserRecord>
  {
    if key in auth && auth[key].UserEntry? then Some(auth[key].user) else None
  }

  function ReadToken(auth: AuthStore, key: string): Option<TokenRecord>
  {
    if key in auth && auth[key].TokenEntry? then Some(auth[key].token) else None
  }

  /** An absent cursor reads as 0. */
  function ReadCursor(s: SessionStore, key: string): int
  {
    if key in s && s[key].CursorText? then s[key].cursor else 0
  }

  /** An absent list reads as the empty list. */
  function ReadList(s: SessionStore, key: string): seq<Summary>
  {
    if key in s && s[key].ListEntry? then s[key].entries else []
  }

  /** User keys and token keys never collide. */
  lemma AuthKeysDistinct(username: string, token: string)
    ensures UserKey(username) != TokenKey(token)
  {
    assert UserKey(username)[0] != TokenKey(token)[0];
  }

  /** Cursor, record and list keys never collide. */
  lemma SessionKeysDistinct(a: string, b: string, c: string, d: string)
    ensures CursorKey(a) != ListKey(b)
    ensures CursorKey(a) != RecordKey(c, d)
    ensures ListKey(b) != RecordKey(c, d)
  {
    assert CursorKey(a)[0] == 'c';
    assert ListKey(b)[0] == 'l';
    assert RecordKey(c, d)[0] == 's';
  }

  /** The single-argument keys determine their argument. */
  lemma KeysInjective(a: string, b: string)
    ensures UserKey(a) == UserKey(b) ==> a == b
    ensures TokenKey(a) == TokenKey(b) ==> a == b
    ensures CursorKey(a) == CursorKey(b) ==> a == b
    ensures ListKey(a) == ListKey(b) ==> a == b
  {
    assert UserKey(a)[5..] == a && UserKey(b)[5..] == b;
    assert TokenKey(a)[8..] == a && TokenKey(b)[8..] == b;
    assert CursorKey(a)[7..] == a && CursorKey(b)[7..] == b;
    assert ListKey(a)[5..] == a && ListKey(b)[5..] == b;
  }

  /** The record key does not determine its two parts: a user id that
      contains ':' can produce another user's key. */
  lemma RecordKeyAmbiguous()
    ensures RecordKey("a", "b:c") == RecordKey("a:b", "c")
  {
  }

  /** The part of `k` after its last ':' (all of `k` when it has none). */
  function AfterLastColon(k: string): string
  {
    if |k| == 0 || k[|k| - 1] == ':' then "" else AfterLastColon(k[..|k| - 1]) + [k[|k| - 1]]
  }

  lemma {:induction false} AfterLastColonOf(x: string, s: string)
    requires ':' !in s
    ensures AfterLastColon(x + ":" + s) == s
    decreases |s|
  {
    if |s| > 0 {
      var s' := s[..|s| - 1];
      assert (x + ":" + s)[..|x + ":" + s| - 1] == x + ":" + s';
      AfterLastColonOf(x, s');
      assert s == s' + [s[|s| - 1]];
    }
  }

  /** With session ids that contain no ':' the record key does determine
      both parts. */
  lemma RecordKeyInjective(u1: string, s1: string, u2: string, s2: string)
    requires ':' !in s1 && ':' !in s2
    requires RecordKey(u1, s1) == RecordKey(u2, s2)
    ensures u1 == u2 && s1 == s2
  {
    var k := RecordKey(u1, s1);
    AfterLastColonOf("session:" + u1, s1);
    AfterLastColonOf("session:" + u2, s2);
    assert s1 == s2;
    assert u1 == k[8..|k| - |s1| - 1] == u2;
  }
}

=== FILE: timer.dfy ===
/** The study countdown in the browser client: `tick`, `pauseResume`,
    `resetSession`, the timer part of `startSession`, and the `mm:ss` text
    `updateCountdown` shows.

    `setInterval` and `clearInterval` are modelled by the set of interval
    handles the browser still fires (`live`) and a counter for the next
    handle; `timer` is the handle the page remembers (None for `null`). */
module Timer {
  import opened Common

  datatype Clock = Clock(remaining: int, total: int, paused: bool, timer: Option<nat>, live: set<nat>, nextHandle: nat)

  /** The page's state on load. */
  const Initial := Clock(0, 0, false, None, {}, 1)

  function Handles(timer: Option<nat>): set<nat>
  {
    if timer.Some? then {timer.value} else {}
  }

  /** `timer = setInterval(tick, 1000)`. */
  function StartInterval(c: Clock): Clock
  {
    c.(live := c.live + {c.nextHandle}, nextHandle := c.nextHandle + 1, timer := Some(c.nextHandle))
  }

  /** `clearInterval(timer); timer = null`. */
  function StopInterval(c: Clock): Clock
  {
    c.(live := c.live - Handles(c.timer), timer := None)
  }

  /** One call of `tick`. */
  function Tick(c: Clock): (r: Clock)
    ensures c.paused ==> r == c
    ensures !c.paused ==> r.remaining == Max0(c.remaining - 1) && r.total == c.total && !r.paused
    ensures !c.paused && r.remaining == 0 ==> r.timer.None? && r.live == c.live - Handles(c.timer)
    ensures !c.paused && r.remaining != 0 ==> r.timer == c.timer && r.live == c.live
    ensures r.nextHandle == c.nextHandle
  {
    if c.paused then c
    else
      var c1 := c.(remaining := Max0(c.remaining - 1));
      if c1.remaining == 0 then StopInterval(c1) else c1
  }

  /** `k` calls of `tick`. */
  function Ticks(c: Clock, k: nat): Clock
    decreases k
  {
    if k == 0 then c else Tick(Ticks(c, k - 1))
  }

  /** A running countdown loses one second per tick, never goes below zero,
      and once it has reached zero the timer is cleared. A paused one does
      not move. */
  lemma {:induction false} TicksRunDown(c: Clock, k: nat)
    requires 0 <= c.remaining
    ensures c.paused ==> Ticks(c, k) == c
    ensures !c.paused ==> Ticks(c, k).remaining == Max0(c.remaining - k) && !Ticks(c, k).paused
    ensures !c.paused && 1 <= k && c.remaining <= k ==> Ticks(c, k).timer.None?
    decreases k
  {
    if k > 0 {
      TicksRunDown(c, k - 1);
      var prev := Ticks(c, k - 1);
      assert Ticks(c, k) == Tick(prev);
      if !c.paused {
        assert Max0(prev.remaining - 1) == Max0(c.remaining - k);
      }
    }
  }

  /** `pauseResume`: restart a stopped countdown that has time left,
      otherwise flip the pause flag. */
  function PauseResume(c: Clock): (r: Clock)
    ensures c.timer.None? && c.remaining > 0 ==>
              && !r.paused && r.timer == Some(c.nextHandle) && r.live == c.live + {c.nextHandle}
              && r.remaining == c.remaining && r.total == c.total
    ensures !(c.timer.None? && c.remaining > 0) ==> r == c.(paused := !c.paused)
  {
    if c.timer.None? && c.remaining > 0 then StartInterval(c).(paused := false)
    else c.(paused := !c.paused)
  }

  /** Pausing and resuming a running countdown is an involution. */
  lemma PauseResumeTwice(c: Clock)
    requires c.timer.Some? || c.remaining <= 0
    ensures PauseResume(PauseResume(c)) == c
  {
  }

  /** `resetSession`. The pause flag is left as it was. */
  function Reset(c: Clock): (r: Clock)
    ensures r.remaining == 0 && r.total == 0 && r.timer.None? && r.paused == c.paused
    ensures r.live == c.live - Handles(c.timer) && r.nextHandle == c.nextHandle
  {
    var c1 := if c.timer.Some? then StopInterval(c) else c;
    c1.(remaining := 0, total := 0)
  }

  /** The timer lines of `startSession` as written: set the time, tick once,
      then store a new interval in `timer` without clearing the old one. */
  function Start(c: Clock, minutes: int): (r: Clock)
    ensures r.remaining == Max0(minutes * 60 - 1) && r.total == minutes * 60 && !r.paused
    ensures r.timer == Some(c.nextHandle) && c.nextHandle in r.live
    ensures Consistent(c) && c.timer.Some? && minutes * 60 > 1 ==>
              c.timer.value in r.live && r.timer != c.timer
    ensures minutes * 60 > 1 ==> r.live == c.live + {c.nextHandle}
    ensures minutes * 60 <= 1 ==> r.live == (c.live - Handles(c.timer)) + {c.nextHandle}
    ensures r.nextHandle == c.nextHandle + 1
  {
    var c1 := c.(total := minutes * 60, remaining := minutes * 60, paused := false);
    StartInterval(Tick(c1))
  }

  /** `startSession` with the evident intent: clear the running interval
      before starting a new one. */
  function StartClean(c: Clock, minutes: int): (r: Clock)
    ensures r.remaining == Max0(minutes * 60 - 1) && r.total == minutes * 60 && !r.paused
    ensures r.timer == Some(c.nextHandle) && r.live == (c.live - Handles(c.timer)) + {c.nextHandle}
    ensures Tidy(c) ==> r.live == {c.nextHandle}
  {
    var c1 := StopInterval(c).(total := minutes * 60, remaining := minutes * 60, paused := false);
    StartInterval(Tick(c1))
  }

  /** The remembered handle is live, and every live handle was issued
      before `nextHandle`. */
  ghost predicate Consistent(c: Clock)
  {
    Handles(c.timer) <= c.live && forall h :: h in c.live ==> h < c.nextHandle
  }

  /** Every operation of the page keeps its interval bookkeeping consistent. */
  lemma ConsistentPreserved(c: Clock, minutes: int)
    requires Consistent(c)
    ensures Consistent(Tick(c)) && Consistent(PauseResume(c)) && Consistent(Reset(c))
    ensures Consistent(Start(c, minutes)) && Consistent(StartClean(c, minutes))
  {
  }

  /** Every interval the browser fires is the one `timer` holds. */
  ghost predicate Tidy(c: Clock)
  {
    c.live == Handles(c.timer)
  }

  /** Starting a second session while one runs leaves the first interval
      firing, and resetting cannot stop it: `tick` keeps running twice a
      second and then once a second forever. */
  lemma StartLeaksInterval()
    ensures Tidy(Start(Initial, 10))
    ensures !Tidy(Start(Start(Initial, 10), 10))
    ensures Reset(Start(Start(Initial, 10), 10)).live == {1}
  {
  }

  /** With the clean start every operation keeps the page tidy, so a reset
      always stops every interval. */
  lemma CleanStartStaysTidy(c: Clock, minutes: int)
    requires Tidy(c)
    ensures Tidy(Tick(c)) && Tidy(PauseResume(c)) && Tidy(StartClean(c, minutes))
    ensures Tidy(Reset(c)) && Reset(c).live == {}
  {
  }

  /** `String(n)`: the decimal digits of `n`. */
  function DecimalText(n: nat): (r: string)
    ensures |r| >= 1 && AllDigits(r)
    ensures n < 10 ==> |r| == 1
    ensures 10 <= n < 100 ==> |r| == 2
    ensures n >= 10 ==> r[0] != '0'
    decreases n
  {
    if n < 10 then [DigitChar(n)] else DecimalText(n / 10) + [DigitChar(n % 10)]
  }

  function DigitChar(d: nat): char
    requires d < 10
  {
    ('0' as int + d) as char
  }

  /** The number a string of decimal digits denotes. */
  function DecimalValue(s: string): nat
    requires AllDigits(s)
  {
    if |s| == 0 then 0 else DecimalValue(s[..|s| - 1]) * 10 + (s[|s| - 1] as int - '0' as int)
  }

  lemma {:induction false} DecimalRoundTrip(n: nat)
    ensures DecimalValue(DecimalText(n)) == n
    decreases n
  {
    if n >= 10 {
      DecimalRoundTrip(n / 10);
      var t := DecimalText(n);
      assert t[..|t| - 1] == DecimalText(n / 10);
    }
  }

  /** A leading zero does not change the value. */
  lemma {:induction false} LeadingZero(s: string)
    requires AllDigits(s)
    ensures AllDigits("0" + s) && DecimalValue("0" + s) == DecimalValue(s)
    decreases |s|
  {
    if |s| > 0 {
      var t := "0" + s;
      assert t[..|t| - 1] == "0" + s[..|s| - 1];
      LeadingZero(s[..|s| - 1]);
    }
  }

  /** `s.padStart(2, "0")`. */
  function PadTwo(s: string): (r: string)
    ensures |s| >= 2 ==> r == s
    ensures |s| < 2 ==> |r| == 2 && r[2 - |s|..] == s && forall i :: 0 <= i < 2 - |s| ==> r[i] == '0'
  {
    if |s| >= 2 then s else if |s| == 1 then "0" + s else "00"
  }

  /** The `mm:ss` text of `updateCountdown(rem, ...)`. It always reads back
      as the seconds shown, and under 100 minutes it is exactly five
      characters. */
  function CountdownText(rem: nat): (r: string)
    ensures ParseCountdown(r) == Some(rem)
    ensures rem < 6000 ==> |r| == 5
  {
    var mm := PadTwo(DecimalText(rem / 60));
    var ss := PadTwo(DecimalText(rem % 60));
    PaddedValue(rem / 60);
    PaddedValue(rem % 60);
    JoinParses(mm, ss);
    mm + ":" + ss
  }

  /** Digit fields joined by ':' read back as minutes times 60 plus
      seconds, when the seconds field has two digits below 60. */
  lemma JoinParses(mm: string, ss: string)
    requires |mm| >= 1 && AllDigits(mm) && |ss| == 2 && AllDigits(ss) && DecimalValue(ss) < 60
    ensures ParseCountdown(mm + ":" + ss) == Some(DecimalValue(mm) * 60 + DecimalValue(ss))
  {
    var t := mm + ":" + ss;
    assert t[|t| - 3] == ':';
    assert t[..|t| - 3] == mm;
    assert t[|t| - 2..] == ss;
  }

  /** Reads `mm:ss` text back: minutes are the digits before the ':', and
      the seconds are the two digits after it, below 60. */
  function ParseCountdown(t: string): Option<nat>
  {
    if |t| < 4 || t[|t| - 3] != ':' || !AllDigits(t[..|t| - 3]) || !AllDigits(t[|t| - 2..])
       || DecimalValue(t[|t| - 2..]) >= 60
    then None
    else Some(DecimalValue(t[..|t| - 3]) * 60 + DecimalValue(t[|t| - 2..]))
  }

  /** The value of two digits. */
  lemma TwoDigitValue(s: string)
    requires |s| == 2 && AllDigits(s)
    ensures DecimalValue(s) == (s[0] as int - '0' as int) * 10 + (s[1] as int - '0' as int)
  {
    var first := s[..|s| - 1];
    assert first == [s[0]] && first[..|first| - 1] == [];
    assert DecimalValue(first) == s[0] as int - '0' as int;
  }

  /** Two strings of two digits with the same value are the same string. */
  lemma SameTwoDigits(s: string, t: string)
    requires |s| == 2 && AllDigits(s) && |t| == 2 && AllDigits(t)
    requires DecimalValue(s) == DecimalValue(t)
    ensures s == t
  {
    TwoDigitValue(s);
    TwoDigitValue(t);
    assert s[0] as int == t[0] as int && s[1] as int == t[1] as int;
  }

  /** Two digits are the padded decimal text of the number they denote. */
  lemma TwoDigits(s: string)
    requires |s| == 2 && AllDigits(s)
    ensures DecimalValue(s) < 100 && s == PadTwo(DecimalText(DecimalValue(s)))
  {
    TwoDigitValue(s);
    PaddedValue(DecimalValue(s));
    SameTwoDigits(s, PadTwo(DecimalText(DecimalValue(s))));
  }

  /** Under 100 minutes no other five-character text reads back as the
      same seconds: the countdown text is the only one. */
  lemma CountdownTextUnique(rem: nat, t: string)
    requires rem < 6000 && |t| == 5 && ParseCountdown(t) == Some(rem)
    ensures t == CountdownText(rem)
  {
    var mm, ss := t[..2], t[3..];
    assert t[..|t| - 3] == mm && t[|t| - 2..] == ss;
    TwoDigits(mm);
    TwoDigits(ss);
    var a, b := DecimalValue(mm), DecimalValue(ss);
    assert a * 60 + b == rem && b < 60;
    assert a == rem / 60 && b == rem % 60;
    assert t == mm + ":" + ss;
  }

  lemma PaddedValue(n: nat)
    ensures AllDigits(PadTwo(DecimalText(n))) && DecimalValue(PadTwo(DecimalText(n))) == n
    ensures |PadTwo(DecimalText(n))| >= 2
    ensures n < 100 ==> |PadTwo(DecimalText(n))| == 2
  {
    DecimalRoundTrip(n);
    if |DecimalText(n)| == 1 {
      LeadingZero(DecimalText(n));
    }
  }
}
